=== FILE: README.md ===
# Tip calculator settings validator, in Dafny

This project models the settings screen of a tip-calculator iOS app
(`SettingsViewController.swift`). The screen has two text fields: the
default tip percentage and the maximum tip percentage. Each is backed by a
string in the user-defaults store, under the keys `UserDefinedTip` and
`UserDefinedMax`.

- **On load**, each field shows its stored text followed by `%`. If the key
  was never written, it shows `25%` or `50%`.
- **When editing of a field ends**, the handler does the following:
  - An empty field is restored from the store.
  - Otherwise every `%` is stripped and the rest is parsed as an integer.
  - The value is checked against the other field's stored value first, and
    against its own range second.
  - A valid value is written to the store and shown again with one `%`.
  - A rejected value is replaced by the stored text plus `%`.

The model is functional. The store is a `map<string, string>`.
`SubmitDefault` and `SubmitMax` are pure functions from the store and the
field's text to a `Submission`, which is one of:

- `Crash(fault)`: the Swift code would trap.
- `Done(store, display, errorText, outcome)`:
  - `store` is the new store;
  - `display` is the field's new text;
  - `errorText` is what was written to the field's error label (`None`
    means the label was not touched);
  - `outcome` is one of `Restored`, `CrossFieldRejected`, `RangeRejected`
    or `Accepted`.

A trap happens at any force unwrap that meets nil:

- the field's text and the stored fallback are both nil;
- a stored value that is read with `!` is absent;
- `Int(text)!` is applied to text that is not an integer.

Each of these is an explicit `Fault`. None of them is a precondition.

Files:

- `options.dfy`: Swift optionals and the `??` operator.
- `swift_text.dfy`: models of `replacingOccurrences(of: "%", with: "")`,
  `Int(String)` and `String(Int)`, with their round-trip lemmas.
- `settings.dfy`: the store, the keys, the messages, the load path, both
  handlers, the consistency predicate `Valid`, and `Replay`, which applies
  a series of edits.
- `settings_properties.dfy`: what each path does, invariant preservation,
  the frame condition, idempotence, and worked examples.

Behaviour worth knowing:

- The emptiness test runs on the raw text, before `%` is stripped. So `%`,
  or any text made only of `%` signs, passes the test. It strips to `""`
  and then traps in `Int("")!` (`PercentOnlyInputTraps`).
- All `%` signs are removed, wherever they appear, not only a trailing one.
- If the default tip is outside [0, 100] but not above the max, the error
  label is set to `Max tip less than default.` (line 75).
- If the max tip is below the default, the input is rejected and the error
  label is not written at all (lines 104-109).
- The cross-field check runs before the range check, so a max of 10 with a
  default of 25 is a cross-field rejection and the label is not written
  (`ScenarioMaxTen`).
- The accepted text is stored as typed, after stripping. So `030%` is
  stored as `030`, not re-rendered as `30`.
- A numeric submission force-unwraps the other field's stored value, and a
  rejection force-unwraps the field's own stored value. So if the store
  has never been written, load shows `25%` and `50%`, but any numeric
  submission traps on the other field's absent key
  (`OtherKeyMissingTraps`). Whether another screen writes the keys first is not
  part of this model.

## Model

| member | source | states |
|---|---|---|
| SwiftText.StripPercent | SettingsViewController.swift:58 | the result contains no `%`; is no longer than the input; equals the input when the input has no `%` |
| SwiftText.StripPercentAppend | SettingsViewController.swift:58 | stripping distributes over concatenation, so exactly the non-`%` characters survive, in order |
| SwiftText.StripPercentDropsSuffix | SettingsViewController.swift:58 | stripping a `%`-free text with the display `%` appended gives back that text |
| SwiftText.ParseInt | SettingsViewController.swift:60 | parsing succeeds exactly for non-empty text that is an optional `+`/`-` followed by at least one ASCII digit, so any other text (`5a`, ` 5`, `+`, `%`) fails; a success has no `%`; an unsigned success is non-negative |
| SwiftText.ParseIntLeadingZero | SettingsViewController.swift:60 | a leading zero does not change the value of an unsigned digit string |
| SwiftText.ParseIntSign | SettingsViewController.swift:60 | a `+` prefix keeps the value of the digits and a `-` prefix negates it |
| SwiftText.ParseIntOfIntToString | SettingsViewController.swift:60 | parsing the printed form of any integer gives that integer back |
| Settings.LoadDisplays | SettingsViewController.swift:29-33 | each field shows its stored text plus `%` when the key is present, and `25%` (tip) or `50%` (max) when it is absent |
| Settings.ReadInput | SettingsViewController.swift:50-60 | the field's text, or the stored value when the text is nil, is read as blank exactly when it is `""`; as the `NoText` trap when both are nil; otherwise as a number exactly when it parses once every `%` is stripped, and then that number is the stripped text and its value |
| Settings.SubmitDefault | SettingsViewController.swift:48-88 | only the tip key can change; the store changes only on acceptance; the field always shows the committed tip plus `%`; an accepted tip parses into [0, 100] and does not exceed the stored max; the error label is cleared exactly on acceptance and untouched exactly on restore (helpers: `ReadInput`, `StoredInt` for the force-unwrapped stored max, `Restore` for the reject and empty paths, `JudgeDefault` for the two checks) |
| Settings.SubmitMax | SettingsViewController.swift:90-129 | only the max key can change; the store changes only on acceptance; the field always shows the committed max plus `%`; an accepted max parses into [15, 100] and is at least the stored default; the label is cleared exactly on acceptance and untouched exactly on restore or cross-field rejection (helpers: `ReadInput`, `StoredInt` for the force-unwrapped stored default, `Restore` for the reject and empty paths, `JudgeMax` for the two checks) |
| SettingsProperties.BlankInputIsNoOp | SettingsViewController.swift:52-56 | for both fields, `""` restores the stored text plus `%` with store and label unchanged, and traps when the key is absent (also lines 94-98) |
| SettingsProperties.LoadAgreesWithRestore | SettingsViewController.swift:29-33 | once both keys are stored, an emptied field shows exactly what it showed at load |
| SettingsProperties.PercentOnlyInputTraps | SettingsViewController.swift:52-60 | non-empty text made only of `%` traps in both fields, whatever the store holds, because the empty test precedes stripping |
| SettingsProperties.OtherKeyMissingTraps | SettingsViewController.swift:45-62 | a numeric default submission traps whenever the max key is absent, a numeric max submission whenever the default key is absent (line 104 for the max); an empty store still loads as `25%`/`50%` |
| SettingsProperties.DefaultRejectionWithoutOwnKeyTraps | SettingsViewController.swift:62-78 | with the default key absent, every numeric default that fails either check traps on the restore's force unwrap |
| SettingsProperties.MaxRejectionWithoutOwnKeyTraps | SettingsViewController.swift:104-119 | with the max key absent, every numeric max that fails either check traps on the restore's force unwrap |
| SettingsProperties.DefaultAboveMaxRejected | SettingsViewController.swift:62-69 | a default above the stored max is rejected with `Default tip greater than max.`, store unchanged, previous default restored, whatever its range |
| SettingsProperties.DefaultOutOfRangeRejected | SettingsViewController.swift:71-78 | a default not above the max but outside [0, 100] is rejected with `Max tip less than default.`, store unchanged, previous default restored |
| SettingsProperties.MaxBelowDefaultRejected | SettingsViewController.swift:104-110 | a max below the stored default is rejected, store unchanged, previous max restored, no error text written |
| SettingsProperties.MaxOutOfRangeRejected | SettingsViewController.swift:112-119 | a max not below the default but outside [15, 100] is rejected with `Value must be >15%, and <100%.`, store unchanged |
| SettingsProperties.DefaultAcceptedIff | SettingsViewController.swift:58-86 | a default text is accepted if and only if it is non-empty and strips to an integer in [0, 100] no greater than the stored max; it is then stored stripped, shown with `%`, and the label is cleared |
| SettingsProperties.MaxAcceptedIff | SettingsViewController.swift:100-128 | a max text is accepted if and only if it is non-empty and strips to an integer in [15, 100] no less than the stored default; stored stripped, shown with `%`, label cleared |
| SettingsProperties.AcceptsPrintedDefault | SettingsViewController.swift:80-86 | every printed integer in [0, min(100, max)], with or without a trailing `%`, is accepted as the default |
| SettingsProperties.AcceptsPrintedMax | SettingsViewController.swift:121-128 | every printed integer in [max(15, default), 100], with or without a trailing `%`, is accepted as the max |
| SettingsProperties.TrapsOnlyOnNonNumericText | SettingsViewController.swift:44-60 | on a consistent store, either handler traps exactly when the user's text is non-empty and not an integer after stripping |
| SettingsProperties.SubmitKeepsValid | SettingsViewController.swift:62-128 | from a store with 0 <= default <= max and 15 <= max <= 100, every non-trapping submission to either field keeps that relation |
| SettingsProperties.ReplayKeepsValid | SettingsViewController.swift:38-130 | any series of end-of-editing events that does not trap keeps a consistent store consistent |
| SettingsProperties.StoredDefaultResubmits | SettingsViewController.swift:58-86 | submitting the shown text of a stored default that passes both checks is accepted and leaves the store as it is |
| SettingsProperties.StoredMaxResubmits | SettingsViewController.swift:100-128 | submitting the shown text of a stored max that passes both checks is accepted and leaves the store as it is |
| SettingsProperties.AcceptedDefaultIdempotent | SettingsViewController.swift:80-86 | resubmitting the text an accepted default submission displayed gives back the same result |
| SettingsProperties.AcceptedMaxIdempotent | SettingsViewController.swift:121-128 | resubmitting the text an accepted max submission displayed gives back the same result |
| SettingsProperties.DisplayedTextResubmits | SettingsViewController.swift:54-126 | on a consistent store, the text any non-trapping submission leaves in the field is accepted again without changing the store, so restores never accumulate `%` signs |
| SettingsProperties.ScenarioMaxTen | SettingsViewController.swift:104-110 | with 25/50 stored, a max of `10` is a cross-field rejection showing `50%` with no error text |
| SettingsProperties.ScenarioMaxAboveRange | SettingsViewController.swift:112-119 | with 25/50 stored, a max of `101` is a range rejection with the range message |
| SettingsProperties.ScenarioDefaultSixty | SettingsViewController.swift:62-69 | with 25/50 stored, a default of `60` is rejected as above the max and `25%` is shown |
| SettingsProperties.ScenarioThirtyThirty | SettingsViewController.swift:121-128 | with 25/50 stored, a max of `30` is accepted, and then a default of `30%` (the equal boundary) is accepted |

## Left out

- UIKit presentation: outlets, delegate wiring (lines 25-26), border
  colours and widths, `textFieldShouldReturn` (lines 132-137) and the
  commented-out navigation. None of it affects the stored values or the
  texts.
- Field identity: the `textField == defaultTip` dispatch becomes two
  separately named functions.
- `UserDefaults` persistence and value types: the store is an in-memory map
  of strings, so non-string values under these keys are not modelled.
- SwiftText.ParseInt: integers are unbounded, so `Int(String)` returning
  nil on 64-bit overflow is not modelled. Digits are ASCII `0`-`9` only.
- SwiftText.StripPercent: works on Unicode scalars (`char`). Swift
  compares grapheme clusters, so a `%` followed by a combining mark is
  treated differently there.

=== FILE: options.dfy ===
/** Swift's optional values (`T?`), as used for text-field contents and
    for values read back from the settings store. */
module Options {

  datatype Option<+T> = None | Some(value: T) {

    /** Swift's `x ?? fallback` with a non-optional fallback. */
    function GetOr(fallback: T): T {
      match this
      case Some(v) => v
      case None => fallback
    }

    /** Swift's `x ?? y` where `y` is itself optional. */
    function OrElse(other: Option<T>): Option<T> {
      match this
      case Some(_) => this
      case None => other
    }
  }
}

=== FILE: settings.dfy ===
/** The settings screen's validator: the two percentage fields (default tip
    and max tip), the key-value store they are committed to, and what the
    screen shows when it loads and when editing of either field ends. */
module Settings {
  import opened Options
  import opened SwiftText

  /** The persistent key-value store, holding string values. */
  type Store = map<string, string>

  const TipKey: string := "UserDefinedTip"
  const MaxKey: string := "UserDefinedMax"

  /** Texts shown on load for a key that was never written. */
  const FallbackTip: string := "25"
  const FallbackMax: string := "50"

  /** Error-label texts, exactly as the screen writes them. */
  const DefaultAboveMaxText: string := "Default tip greater than max."
  const DefaultOutOfRangeText: string := "Max tip less than default."
  const MaxOutOfRangeText: string := "Value must be >15%, and <100%."

  /** Bounds of the range checks. */
  const MinTip: int := 0
  const MinMax: int := 15
  const MaxPercent: int := 100

  /** `defaults.string(forKey:)`. */
  function Get(s: Store, key: string): Option<string> {
    if key in s then Some(s[key]) else None
  }

  /** Why the screen would trap: a force-unwrapped nil. */
  datatype Fault =
    | NoText                         // the field's text and the stored fallback are both nil
    | MissingKey(key: string)        // a stored value read with `!` is absent
    | NotAnInteger(text: string)     // `Int(text)!` on text that is not an integer

  /** A stored value read with `Int(...!)!`: the integer, or the trap. */
  datatype Unwrapped = Value(value: int) | Trap(fault: Fault)

  datatype Outcome = Restored | CrossFieldRejected | RangeRejected | Accepted

  /** Result of ending the edit of one field: either the screen traps, or
      the new store, the text the field now shows, what was written to the
      field's error label (None: the label was left as it was) and which
      path was taken. */
  datatype Submission =
    | Crash(fault: Fault)
    | Done(store: Store, display: string, errorText: Option<string>, outcome: Outcome)

  /** The texts of the two fields right after the screen loads. */
  datatype Displays = Displays(tip: string, max: string)

  /** The text a field shows for a stored value `t`. */
  function WithSuffix(t: string): string
  {
    t + [Percent]
  }

  /** Load path: each field shows its stored text, or the fallback when the
      key is absent, followed by a percent sign. */
  function LoadDisplays(s: Store): (d: Displays)
    ensures |d.tip| > 0 && d.tip[|d.tip| - 1] == Percent
    ensures |d.max| > 0 && d.max[|d.max| - 1] == Percent
    ensures TipKey in s ==> d.tip == WithSuffix(s[TipKey])
    ensures MaxKey in s ==> d.max == WithSuffix(s[MaxKey])
    ensures TipKey !in s ==> d.tip == "25%"
    ensures MaxKey !in s ==> d.max == "50%"
  {
    Displays(WithSuffix(Get(s, TipKey).GetOr(FallbackTip)),
             WithSuffix(Get(s, MaxKey).GetOr(FallbackMax)))
  }

  /** What the first half of either branch makes of the field's text. */
  datatype Input =
    | Blank                                  // the text was exactly ""
    | Unreadable(fault: Fault)               // unwrapping or parsing would trap
    | Number(cleaned: string, value: int)    // percent signs stripped, parsed

  /** Shared prelude of both branches: fall back to the stored text when the
      field's text is nil, test for "" BEFORE stripping, then strip every
      percent sign and parse. */
  function ReadInput(raw: Option<string>, stored: Option<string>): (i: Input)
    ensures i.Blank? <==> raw.OrElse(stored) == Some("")
    ensures i.Number? ==> Percent !in i.cleaned && ParseInt(i.cleaned) == Some(i.value)
    ensures raw.OrElse(stored).None? ==> i == Unreadable(NoText)
    ensures raw.OrElse(stored).Some? && raw.OrElse(stored) != Some("") ==>
              (i.Number? <==> ParseInt(StripPercent(raw.OrElse(stored).value)).Some?)
    ensures i.Number? ==> i.cleaned == StripPercent(raw.OrElse(stored).value)
  {
    var text := raw.OrElse(stored);
    if text == Some("") then Blank
    else if text.None? then Unreadable(NoText)
    else
      var cleaned := StripPercent(text.value);
      match ParseInt(cleaned)
      case None => Unreadable(NotAnInteger(cleaned))
      case Some(v) => Number(cleaned, v)
  }

  /** `Int(defaults.string(forKey: key)!)!`. */
  function StoredInt(s: Store, key: string): Unwrapped
  {
    if key !in s then Trap(MissingKey(key))
    else match ParseInt(s[key])
      case None => Trap(NotAnInteger(s[key]))
      case Some(v) => Value(v)
  }

  /** Rejection or empty-input path: the field shows the stored text again
      (`stored! + "%"`), the store is untouched. */
  function Restore(s: Store, key: string, errorText: Option<string>, outcome: Outcome): Submission
    requires outcome != Accepted
  {
    if key in s then Done(s, WithSuffix(s[key]), errorText, outcome)
    else Crash(MissingKey(key))
  }

  /** Ending the edit of the default-tip field, whose text is `raw`. */
  function SubmitDefault(s: Store, raw: Option<string>): (r: Submission)
    // only the default-tip key can change
    ensures r.Done? ==> forall k :: k != TipKey ==> Get(r.store, k) == Get(s, k)
    ensures r.Done? && r.outcome != Accepted ==> r.store == s
    // the field always ends up showing the committed value
    ensures r.Done? ==> TipKey in r.store && r.display == WithSuffix(r.store[TipKey])
    // an accepted value is a percentage no larger than the stored max
    ensures r.Done? && r.outcome == Accepted ==>
              && ParseInt(r.store[TipKey]).Some?
              && MinTip <= ParseInt(r.store[TipKey]).value <= MaxPercent
              && MaxKey in s && ParseInt(s[MaxKey]).Some?
              && ParseInt(r.store[TipKey]).value <= ParseInt(s[MaxKey]).value
    // the error label is cleared exactly on acceptance and untouched exactly on a restore
    ensures r.Done? ==> (r.errorText == Some("") <==> r.outcome == Accepted)
    ensures r.Done? ==> (r.errorText.None? <==> r.outcome == Restored)
  {
    match ReadInput(raw, Get(s, TipKey))
    case Blank => Restore(s, TipKey, None, Restored)
    case Unreadable(f) => Crash(f)
    case Number(cleaned, d) =>
      match StoredInt(s, MaxKey)
      case Trap(f) => Crash(f)
      case Value(m) => JudgeDefault(s, cleaned, d, m)
  }

  /** The two checks of the default-tip branch, for the parsed input `d`
      (from the stripped text `cleaned`) against the stored max `m`: the
      cross-field check first, then the range check. */
  function JudgeDefault(s: Store, cleaned: string, d: int, m: int): Submission {
    if m < d then Restore(s, TipKey, Some(DefaultAboveMaxText), CrossFieldRejected)
    else if d < MinTip || d > MaxPercent then
      Restore(s, TipKey, Some(DefaultOutOfRangeText), RangeRejected)
    else Done(s[TipKey := cleaned], WithSuffix(cleaned), Some(""), Accepted)
  }

  /** Ending the edit of the max-tip field, whose text is `raw`. */
  function SubmitMax(s: Store, raw: Option<string>): (r: Submission)
    // only the max-tip key can change
    ensures r.Done? ==> forall k :: k != MaxKey ==> Get(r.store, k) == Get(s, k)
    ensures r.Done? && r.outcome != Accepted ==> r.store == s
    // the field always ends up showing the committed value
    ensures r.Done? ==> MaxKey in r.store && r.display == WithSuffix(r.store[MaxKey])
    // an accepted value lies in [15, 100] and is no smaller than the stored default
    ensures r.Done? && r.outcome == Accepted ==>
              && ParseInt(r.store[MaxKey]).Some?
              && MinMax <= ParseInt(r.store[MaxKey]).value <= MaxPercent
              && TipKey in s && ParseInt(s[TipKey]).Some?
              && ParseInt(s[TipKey]).value <= ParseInt(r.store[MaxKey]).value
    // the error label is cleared on acceptance, set on a range rejection,
    // and left alone on a restore or a cross-field rejection
    ensures r.Done? ==> (r.errorText == Some("") <==> r.outcome == Accepted)
    ensures r.Done? ==> (r.errorText.None? <==> r.outcome in {Restored, CrossFieldRejected})
  {
    match ReadInput(raw, Get(s, MaxKey))
    case Blank => Restore(s, MaxKey, None, Restored)
    case Unreadable(f) => Crash(f)
    case Number(cleaned, m) =>
      match StoredInt(s, TipKey)
      case Trap(f) => Crash(f)
      case Value(d) => JudgeMax(s, cleaned, m, d)
  }

  /** The two checks of the max-tip branch, for the parsed input `m` (from
      the stripped text `cleaned`) against the stored default `d`. */
  function JudgeMax(s: Store, cleaned: string, m: int, d: int): Submission {
    if d > m then Restore(s, MaxKey, None, CrossFieldRejected)
    else if m < MinMax || m > MaxPercent then
      Restore(s, MaxKey, Some(MaxOutOfRangeText), RangeRejected)
    else Done(s[MaxKey := cleaned], WithSuffix(cleaned), Some(""), Accepted)
  }

  /** The relation the two checks are meant to keep between the stored
      values: both present and numeric, 0 <= default <= max, and
      15 <= max <= 100. */
  predicate Valid(s: Store) {
    && TipKey in s && MaxKey in s
    && ParseInt(s[TipKey]).Some? && ParseInt(s[MaxKey]).Some?
    && MinTip <= ParseInt(s[TipKey]).value <= ParseInt(s[MaxKey]).value
    && MinMax <= ParseInt(s[MaxKey]).value <= MaxPercent
  }

  /** One end-of-editing event on the screen, for one of its two fields. */
  datatype Edit = EditDefault(raw: Option<string>) | EditMax(raw: Option<string>)

  function Apply(s: Store, e: Edit): Submission {
    match e
    case EditDefault(raw) => SubmitDefault(s, raw)
    case EditMax(raw) => SubmitMax(s, raw)
  }

  /** The store after a series of edits, or None once one of them traps. */
  function Replay(s: Store, edits: seq<Edit>): Option<Store>
    decreases |edits|
  {
    if |edits| == 0 then Some(s)
    else match Apply(s, edits[0])
      case Crash(_) => None
      case Done(next, _, _, _) => Replay(next, edits[1..])
  }
}

=== FILE: settings_properties.dfy ===
/** Properties of the settings validator: what each path of the two
    end-of-editing handlers does, that accepted values keep the stored pair
    consistent, and that the text a field shows can always be resubmitted. */
module SettingsProperties {
  import opened Options
  import opened SwiftText
  import opened Settings

  /** Every character of `t` is a percent sign. */
  predicate OnlyPercents(t: string) {
    forall i :: 0 <= i < |t| ==> t[i] == Percent
  }

  lemma {:induction false} StripOnlyPercents(t: string)
    requires OnlyPercents(t)
    ensures StripPercent(t) == ""
  {
    if |t| > 0 {
      StripOnlyPercents(t[1..]);
    }
  }

  lemma KeysDiffer()
    ensures TipKey != MaxKey
  {
  }

  /** A non-empty text whose stripped form parses is read as that number. */
  lemma ReadsNumber(t: string, stored: Option<string>)
    requires t != "" && ParseInt(StripPercent(t)).Some?
    ensures ReadInput(Some(t), stored) == Number(StripPercent(t), ParseInt(StripPercent(t)).value)
  {
  }

  /** A numeric default text gets past the prelude and the read of the
      stored max, on to the two checks. */
  lemma DefaultReachesChecks(s: Store, t: string)
    requires t != "" && ParseInt(StripPercent(t)).Some?
    requires MaxKey in s && ParseInt(s[MaxKey]).Some?
    ensures SubmitDefault(s, Some(t))
         == JudgeDefault(s, StripPercent(t), ParseInt(StripPercent(t)).value, ParseInt(s[MaxKey]).value)
  {
    ReadsNumber(t, Get(s, TipKey));
    assert StoredInt(s, MaxKey) == Value(ParseInt(s[MaxKey]).value);
  }

  /** A numeric max text gets past the prelude and the read of the stored
      default, on to the two checks. */
  lemma MaxReachesChecks(s: Store, t: string)
    requires t != "" && ParseInt(StripPercent(t)).Some?
    requires TipKey in s && ParseInt(s[TipKey]).Some?
    ensures SubmitMax(s, Some(t))
         == JudgeMax(s, StripPercent(t), ParseInt(StripPercent(t)).value, ParseInt(s[TipKey]).value)
  {
    ReadsNumber(t, Get(s, MaxKey));
    assert StoredInt(s, TipKey) == Value(ParseInt(s[TipKey]).value);
  }

  /** Tabbing away from an empty field restores the stored text; the store
      and the error label are untouched. The stored value is force-unwrapped,
      so an absent key traps. */
  lemma BlankInputIsNoOp(s: Store)
    ensures TipKey in s ==> SubmitDefault(s, Some("")) == Done(s, WithSuffix(s[TipKey]), None, Restored)
    ensures TipKey !in s ==> SubmitDefault(s, Some("")) == Crash(MissingKey(TipKey))
    ensures MaxKey in s ==> SubmitMax(s, Some("")) == Done(s, WithSuffix(s[MaxKey]), None, Restored)
    ensures MaxKey !in s ==> SubmitMax(s, Some("")) == Crash(MissingKey(MaxKey))
  {
  }

  /** Once a key is stored, restoring an emptied field shows exactly what
      the field showed when the screen loaded. */
  lemma LoadAgreesWithRestore(s: Store)
    requires TipKey in s && MaxKey in s
    ensures SubmitDefault(s, Some("")).display == LoadDisplays(s).tip
    ensures SubmitMax(s, Some("")).display == LoadDisplays(s).max
  {
  }

  /** The emptiness test looks at the text before percent signs are
      stripped: text made only of percent signs passes it, strips to "" and
      then fails to parse, whatever the store holds. */
  lemma PercentOnlyInputTraps(s: Store, t: string)
    requires t != "" && OnlyPercents(t)
    ensures SubmitDefault(s, Some(t)) == Crash(NotAnInteger(""))
    ensures SubmitMax(s, Some(t)) == Crash(NotAnInteger(""))
  {
    StripOnlyPercents(t);
  }

  /** A numeric submission to either field force-unwraps the other field's
      stored value first, so it traps whenever that key is absent; in a
      store where neither key was ever written, the screen nevertheless
      shows the fallbacks 25% and 50%. */
  lemma OtherKeyMissingTraps(s: Store, t: string)
    requires t != "" && ParseInt(StripPercent(t)).Some?
    ensures MaxKey !in s ==> SubmitDefault(s, Some(t)) == Crash(MissingKey(MaxKey))
    ensures TipKey !in s ==> SubmitMax(s, Some(t)) == Crash(MissingKey(TipKey))
    ensures LoadDisplays(map[]) == Displays("25%", "50%")
  {
  }

  /** The rejection paths restore the field from its own stored value with
      a force unwrap, so a rejected default traps when the default key is
      absent; an accepted one does not read that key. */
  lemma DefaultRejectionWithoutOwnKeyTraps(s: Store, t: string)
    requires TipKey !in s && MaxKey in s && ParseInt(s[MaxKey]).Some?
    requires t != "" && ParseInt(StripPercent(t)).Some?
    ensures var d := ParseInt(StripPercent(t)).value;
            !(MinTip <= d <= MaxPercent && d <= ParseInt(s[MaxKey]).value)
            ==> SubmitDefault(s, Some(t)) == Crash(MissingKey(TipKey))
  {
    DefaultReachesChecks(s, t);
  }

  /** Likewise a rejected max traps when the max key is absent. */
  lemma MaxRejectionWithoutOwnKeyTraps(s: Store, t: string)
    requires MaxKey !in s && TipKey in s && ParseInt(s[TipKey]).Some?
    requires t != "" && ParseInt(StripPercent(t)).Some?
    ensures var m := ParseInt(StripPercent(t)).value;
            !(MinMax <= m <= MaxPercent && ParseInt(s[TipKey]).value <= m)
            ==> SubmitMax(s, Some(t)) == Crash(MissingKey(MaxKey))
  {
    MaxReachesChecks(s, t);
  }

  /** A default above the stored max is rejected with its own message, even
      when it is also outside [0, 100]: the cross-field check comes first. */
  lemma DefaultAboveMaxRejected(s: Store, t: string)
    requires TipKey in s && MaxKey in s && ParseInt(s[MaxKey]).Some?
    requires t != "" && ParseInt(StripPercent(t)).Some?
    requires ParseInt(StripPercent(t)).value > ParseInt(s[MaxKey]).value
    ensures SubmitDefault(s, Some(t))
         == Done(s, WithSuffix(s[TipKey]), Some(DefaultAboveMaxText), CrossFieldRejected)
  {
    DefaultReachesChecks(s, t);
  }

  /** A default not above the max but outside [0, 100] is rejected; the
      label text is the one the screen writes on this path. */
  lemma DefaultOutOfRangeRejected(s: Store, t: string)
    requires TipKey in s && MaxKey in s && ParseInt(s[MaxKey]).Some?
    requires t != "" && ParseInt(StripPercent(t)).Some?
    requires ParseInt(StripPercent(t)).value <= ParseInt(s[MaxKey]).value
    requires ParseInt(StripPercent(t)).value < MinTip || ParseInt(StripPercent(t)).value > MaxPercent
    ensures SubmitDefault(s, Some(t))
         == Done(s, WithSuffix(s[TipKey]), Some(DefaultOutOfRangeText), RangeRejected)
  {
    DefaultReachesChecks(s, t);
  }

  /** A max below the stored default is rejected without writing the error
      label, even when it is also outside [15, 100]. */
  lemma MaxBelowDefaultRejected(s: Store, t: string)
    requires TipKey in s && MaxKey in s && ParseInt(s[TipKey]).Some?
    requires t != "" && ParseInt(StripPercent(t)).Some?
    requires ParseInt(StripPercent(t)).value < ParseInt(s[TipKey]).value
    ensures SubmitMax(s, Some(t)) == Done(s, WithSuffix(s[MaxKey]), None, CrossFieldRejected)
  {
    MaxReachesChecks(s, t);
  }

  /** A max not below the default but outside [15, 100] is rejected. */
  lemma MaxOutOfRangeRejected(s: Store, t: string)
    requires TipKey in s && MaxKey in s && ParseInt(s[TipKey]).Some?
    requires t != "" && ParseInt(StripPercent(t)).Some?
    requires ParseInt(StripPercent(t)).value >= ParseInt(s[TipKey]).value
    requires ParseInt(StripPercent(t)).value < MinMax || ParseInt(StripPercent(t)).value > MaxPercent
    ensures SubmitMax(s, Some(t))
         == Done(s, WithSuffix(s[MaxKey]), Some(MaxOutOfRangeText), RangeRejected)
  {
    MaxReachesChecks(s, t);
  }

  /** Exactly the texts that strip to an integer in [0, max] are accepted,
      and an accepted text is stored stripped and shown with one percent
      sign. */
  lemma DefaultAcceptedIff(s: Store, t: string)
    requires MaxKey in s && ParseInt(s[MaxKey]).Some?
    ensures SubmitDefault(s, Some(t)).Done? && SubmitDefault(s, Some(t)).outcome == Accepted
        <==> && t != ""
             && ParseInt(StripPercent(t)).Some?
             && MinTip <= ParseInt(StripPercent(t)).value <= MaxPercent
             && ParseInt(StripPercent(t)).value <= ParseInt(s[MaxKey]).value
    ensures SubmitDefault(s, Some(t)).Done? && SubmitDefault(s, Some(t)).outcome == Accepted
        ==> SubmitDefault(s, Some(t))
            == Done(s[TipKey := StripPercent(t)], WithSuffix(StripPercent(t)), Some(""), Accepted)
  {
    if t != "" && ParseInt(StripPercent(t)).Some? {
      DefaultReachesChecks(s, t);
    }
  }

  /** Exactly the texts that strip to an integer in [max(15, default), 100]
      are accepted, stored stripped and shown with one percent sign. */
  lemma MaxAcceptedIff(s: Store, t: string)
    requires TipKey in s && ParseInt(s[TipKey]).Some?
    ensures SubmitMax(s, Some(t)).Done? && SubmitMax(s, Some(t)).outcome == Accepted
        <==> && t != ""
             && ParseInt(StripPercent(t)).Some?
             && MinMax <= ParseInt(StripPercent(t)).value <= MaxPercent
             && ParseInt(s[TipKey]).value <= ParseInt(StripPercent(t)).value
    ensures SubmitMax(s, Some(t)).Done? && SubmitMax(s, Some(t)).outcome == Accepted
        ==> SubmitMax(s, Some(t))
            == Done(s[MaxKey := StripPercent(t)], WithSuffix(StripPercent(t)), Some(""), Accepted)
  {
    if t != "" && ParseInt(StripPercent(t)).Some? {
      MaxReachesChecks(s, t);
    }
  }

  /** Every percentage written the way Swift prints integers, with or
      without a trailing percent sign, is accepted as a default when it is
      in [0, max]. */
  lemma AcceptsPrintedDefault(s: Store, d: int, suffixed: bool)
    requires MaxKey in s && ParseInt(s[MaxKey]).Some?
    requires MinTip <= d <= MaxPercent && d <= ParseInt(s[MaxKey]).value
    ensures SubmitDefault(s, Some(if suffixed then WithSuffix(IntToString(d)) else IntToString(d)))
            == Done(s[TipKey := IntToString(d)], WithSuffix(IntToString(d)), Some(""), Accepted)
  {
    var t := if suffixed then WithSuffix(IntToString(d)) else IntToString(d);
    if suffixed {
      StripPercentDropsSuffix(IntToString(d));
    }
    assert StripPercent(t) == IntToString(d);
    ParseIntOfIntToString(d);
    DefaultReachesChecks(s, t);
    assert JudgeDefault(s, IntToString(d), d, ParseInt(s[MaxKey]).value)
        == Done(s[TipKey := IntToString(d)], WithSuffix(IntToString(d)), Some(""), Accepted);
  }

  /** Every printed percentage in [max(15, default), 100] is accepted as the
      max, with or without a trailing percent sign. */
  lemma AcceptsPrintedMax(s: Store, m: int, suffixed: bool)
    requires TipKey in s && ParseInt(s[TipKey]).Some?
    requires MinMax <= m <= MaxPercent && ParseInt(s[TipKey]).value <= m
    ensures SubmitMax(s, Some(if suffixed then WithSuffix(IntToString(m)) else IntToString(m)))
            == Done(s[MaxKey := IntToString(m)], WithSuffix(IntToString(m)), Some(""), Accepted)
  {
    var t := if suffixed then WithSuffix(IntToString(m)) else IntToString(m);
    if suffixed {
      StripPercentDropsSuffix(IntToString(m));
    }
    assert StripPercent(t) == IntToString(m);
    ParseIntOfIntToString(m);
    MaxReachesChecks(s, t);
    assert JudgeMax(s, IntToString(m), m, ParseInt(s[TipKey]).value)
        == Done(s[MaxKey := IntToString(m)], WithSuffix(IntToString(m)), Some(""), Accepted);
  }

  /** On a consistent store the only way to trap is user text that is not
      an integer once its percent signs are stripped; a nil text falls back
      to the stored value, which is numeric. */
  lemma TrapsOnlyOnNonNumericText(s: Store, raw: Option<string>)
    requires Valid(s)
    ensures SubmitDefault(s, raw).Crash?
        <==> raw.Some? && raw.value != "" && ParseInt(StripPercent(raw.value)).None?
    ensures SubmitMax(s, raw).Crash?
        <==> raw.Some? && raw.value != "" && ParseInt(StripPercent(raw.value)).None?
  {
    if raw.None? {
      assert ReadInput(raw, Get(s, TipKey)) == Number(s[TipKey], ParseInt(s[TipKey]).value);
      assert StoredInt(s, MaxKey) == Value(ParseInt(s[MaxKey]).value);
      assert ReadInput(raw, Get(s, MaxKey)) == Number(s[MaxKey], ParseInt(s[MaxKey]).value);
      assert StoredInt(s, TipKey) == Value(ParseInt(s[TipKey]).value);
    } else if raw.value != "" && ParseInt(StripPercent(raw.value)).Some? {
      DefaultReachesChecks(s, raw.value);
      MaxReachesChecks(s, raw.value);
    }
  }

  /** Neither handler can break the relation between the stored values. */
  lemma SubmitKeepsValid(s: Store, raw: Option<string>)
    requires Valid(s)
    ensures SubmitDefault(s, raw).Done? ==> Valid(SubmitDefault(s, raw).store)
    ensures SubmitMax(s, raw).Done? ==> Valid(SubmitMax(s, raw).store)
  {
  }

  /** Any series of edits that does not trap leaves a consistent store
      consistent. */
  lemma {:induction false} ReplayKeepsValid(s: Store, edits: seq<Edit>)
    requires Valid(s)
    ensures Replay(s, edits).Some? ==> Valid(Replay(s, edits).value)
    decreases |edits|
  {
    if |edits| > 0 {
      SubmitKeepsValid(s, edits[0].raw);
      match Apply(s, edits[0])
      case Crash(_) =>
      case Done(next, _, _, _) => ReplayKeepsValid(next, edits[1..]);
    }
  }

  /** The text a field shows for a numeric stored value reads back as
      exactly that value. */
  lemma ReadsDisplayedValue(v: string, stored: Option<string>)
    requires ParseInt(v).Some?
    ensures ReadInput(Some(WithSuffix(v)), stored) == Number(v, ParseInt(v).value)
  {
    StripPercentDropsSuffix(v);
    ReadsNumber(WithSuffix(v), stored);
  }

  /** Submitting the text shown for the stored default is accepted and
      leaves the store as it is, whenever the stored default passes both
      checks. */
  lemma StoredDefaultResubmits(s: Store)
    requires TipKey in s && MaxKey in s
    requires ParseInt(s[TipKey]).Some? && ParseInt(s[MaxKey]).Some?
    requires MinTip <= ParseInt(s[TipKey]).value <= MaxPercent
    requires ParseInt(s[TipKey]).value <= ParseInt(s[MaxKey]).value
    ensures SubmitDefault(s, Some(WithSuffix(s[TipKey]))) == Done(s, WithSuffix(s[TipKey]), Some(""), Accepted)
  {
    ReadsDisplayedValue(s[TipKey], Get(s, TipKey));
    assert StoredInt(s, MaxKey) == Value(ParseInt(s[MaxKey]).value);
    assert s[TipKey := s[TipKey]] == s;
  }

  /** Submitting the text shown for the stored max is accepted and leaves
      the store as it is, whenever the stored max passes both checks. */
  lemma StoredMaxResubmits(s: Store)
    requires TipKey in s && MaxKey in s
    requires ParseInt(s[TipKey]).Some? && ParseInt(s[MaxKey]).Some?
    requires MinMax <= ParseInt(s[MaxKey]).value <= MaxPercent
    requires ParseInt(s[TipKey]).value <= ParseInt(s[MaxKey]).value
    ensures SubmitMax(s, Some(WithSuffix(s[MaxKey]))) == Done(s, WithSuffix(s[MaxKey]), Some(""), Accepted)
  {
    ReadsDisplayedValue(s[MaxKey], Get(s, MaxKey));
    assert StoredInt(s, TipKey) == Value(ParseInt(s[TipKey]).value);
    assert s[MaxKey := s[MaxKey]] == s;
  }

  /** Resubmitting the text an acceptance just displayed is accepted again
      and changes nothing. */
  lemma AcceptedDefaultIdempotent(s: Store, raw: Option<string>)
    requires SubmitDefault(s, raw).Done? && SubmitDefault(s, raw).outcome == Accepted
    ensures var r := SubmitDefault(s, raw);
            SubmitDefault(r.store, Some(r.display)) == r
  {
    var r := SubmitDefault(s, raw);
    KeysDiffer();
    assert Get(r.store, MaxKey) == Get(s, MaxKey);
    StoredDefaultResubmits(r.store);
  }

  lemma AcceptedMaxIdempotent(s: Store, raw: Option<string>)
    requires SubmitMax(s, raw).Done? && SubmitMax(s, raw).outcome == Accepted
    ensures var r := SubmitMax(s, raw);
            SubmitMax(r.store, Some(r.display)) == r
  {
    var r := SubmitMax(s, raw);
    KeysDiffer();
    assert Get(r.store, TipKey) == Get(s, TipKey);
    StoredMaxResubmits(r.store);
  }

  /** On a consistent store, whatever a field shows after an edit (accepted,
      rejected or restored) is the committed value plus one percent sign:
      submitting it again is accepted and leaves the store as it is, so
      repeated rejections never pile up percent signs. */
  lemma DisplayedTextResubmits(s: Store, raw: Option<string>)
    requires Valid(s)
    ensures var r := SubmitDefault(s, raw);
            r.Done? ==> SubmitDefault(r.store, Some(r.display)) == Done(r.store, r.display, Some(""), Accepted)
    ensures var r := SubmitMax(s, raw);
            r.Done? ==> SubmitMax(r.store, Some(r.display)) == Done(r.store, r.display, Some(""), Accepted)
  {
    SubmitKeepsValid(s, raw);
    var r := SubmitDefault(s, raw);
    if r.Done? {
      StoredDefaultResubmits(r.store);
    }
    var q := SubmitMax(s, raw);
    if q.Done? {
      StoredMaxResubmits(q.store);
    }
  }

  /** Worked examples on a store holding 25 and 50. A max of 10 is below
      the default, so the cross-field check rejects it before the range
      check is reached, and the error label is not written. */
  lemma ScenarioMaxTen(s: Store)
    requires TipKey in s && s[TipKey] == "25"
    requires MaxKey in s && s[MaxKey] == "50"
    ensures SubmitMax(s, Some("10")) == Done(s, "50%", None, CrossFieldRejected)
  {
    assert IntToString(10) == "10" && IntToString(25) == "25";
    ParseIntOfIntToString(10);
    ParseIntOfIntToString(25);
    MaxBelowDefaultRejected(s, "10");
  }

  lemma ScenarioMaxAboveRange(s: Store)
    requires TipKey in s && s[TipKey] == "25"
    requires MaxKey in s && s[MaxKey] == "50"
    ensures SubmitMax(s, Some("101")) == Done(s, "50%", Some(MaxOutOfRangeText), RangeRejected)
  {
    assert IntToString(101) == "101" && IntToString(25) == "25";
    ParseIntOfIntToString(101);
    ParseIntOfIntToString(25);
    MaxOutOfRangeRejected(s, "101");
  }

  lemma ScenarioDefaultSixty(s: Store)
    requires TipKey in s && s[TipKey] == "25"
    requires MaxKey in s && s[MaxKey] == "50"
    ensures SubmitDefault(s, Some("60")) == Done(s, "25%", Some(DefaultAboveMaxText), CrossFieldRejected)
  {
    assert IntToString(60) == "60" && IntToString(50) == "50";
    ParseIntOfIntToString(60);
    ParseIntOfIntToString(50);
    DefaultAboveMaxRejected(s, "60");
  }

  /** Raising the max to 30 and then setting the default to the same 30
      (the equal boundary) are both accepted. */
  lemma ScenarioThirtyThirty(s: Store)
    requires TipKey in s && s[TipKey] == "25"
    requires MaxKey in s && s[MaxKey] == "50"
    ensures SubmitMax(s, Some("30")) == Done(s[MaxKey := "30"], "30%", Some(""), Accepted)
    ensures SubmitDefault(s[MaxKey := "30"], Some("30%"))
            == Done(s[MaxKey := "30"][TipKey := "30"], "30%", Some(""), Accepted)
  {
    assert IntToString(30) == "30" && IntToString(25) == "25";
    ParseIntOfIntToString(30);
    ParseIntOfIntToString(25);
    AcceptsPrintedMax(s, 30, false);
    AcceptsPrintedDefault(s[MaxKey := "30"], 30, true);
  }
}

=== FILE: swift_text.dfy ===
/** The two pieces of Swift string handling the settings screen relies on:
    `replacingOccurrences(of: "%", with: "")` and the failable integer
    initialiser `Int(_: String)`, plus the decimal rendering `String(n)`
    used to state which inputs are accepted. */
module SwiftText {
  import opened Options

  const Percent: char := '%'

  /** `s.replacingOccurrences(of: "%", with: "")`: every percent sign is
      removed, wherever it appears, and every other character is kept. */
  function StripPercent(s: string): (r: string)
    ensures Percent !in r
    ensures |r| <= |s|
    ensures Percent !in s ==> r == s
  {
    if |s| == 0 then ""
    else (if s[0] == Percent then "" else [s[0]]) + StripPercent(s[1..])
  }

  /** Stripping distributes over concatenation: together with the
      one-character cases this pins down exactly which characters survive. */
  lemma {:induction false} StripPercentAppend(a: string, b: string)
    ensures StripPercent(a + b) == StripPercent(a) + StripPercent(b)
  {
    if |a| == 0 {
      assert a + b == b;
    } else {
      var head := if a[0] == Percent then "" else [a[0]];
      assert (a + b)[0] == a[0];
      assert (a + b)[1..] == a[1..] + b;
      StripPercentAppend(a[1..], b);
      calc {
        StripPercent(a + b);
        head + StripPercent(a[1..] + b);
        head + (StripPercent(a[1..]) + StripPercent(b));
        (head + StripPercent(a[1..])) + StripPercent(b);
        StripPercent(a) + StripPercent(b);
      }
    }
  }

  /** Appending the display suffix and stripping again gives back the text
      that was suffixed, once that text is already free of percent signs. */
  lemma StripPercentDropsSuffix(t: string)
    requires Percent !in t
    ensures StripPercent(t + [Percent]) == t
  {
    StripPercentAppend(t, [Percent]);
  }

  predicate IsDigit(c: char) {
    '0' <= c <= '9'
  }

  predicate IsSign(c: char) {
    c == '+' || c == '-'
  }

  predicate AllDigits(s: string) {
    forall i :: 0 <= i < |s| ==> IsDigit(s[i])
  }

  function DigitValue(c: char): nat
    requires IsDigit(c)
  {
    c as int - '0' as int
  }

  function DigitChar(d: nat): (c: char)
    requires d < 10
    ensures IsDigit(c) && DigitValue(c) == d
  {
    ('0' as int + d) as char
  }

  /** Value of a run of decimal digits, most significant first. */
  function DigitsValue(s: string): nat
    requires AllDigits(s)
  {
    if |s| == 0 then 0
    else DigitsValue(s[..|s| - 1]) * 10 + DigitValue(s[|s| - 1])
  }

  /** Swift's `Int(_ description: String)`: an optional leading `+` or `-`
      followed by at least one ASCII digit; anything else (the empty string,
      a lone sign, spaces, a percent sign) yields nil. Leading zeros are
      accepted. */
  function ParseInt(s: string): (r: Option<int>)
    ensures r.Some? <==> |s| > 0 && (if IsSign(s[0]) then |s| > 1 && AllDigits(s[1..]) else AllDigits(s))
    ensures r.Some? ==> |s| > 0 && Percent !in s
    ensures r.Some? && !IsSign(s[0]) ==> r.value >= 0
  {
    if |s| == 0 then None
    else if IsSign(s[0]) then
      var digits := s[1..];
      if |digits| == 0 || !AllDigits(digits) then None
      else
        var magnitude: int := DigitsValue(digits);
        Some(if s[0] == '-' then -magnitude else magnitude)
    else if AllDigits(s) then Some(DigitsValue(s))
    else None
  }

  /** Swift's `String(n)` for a non-negative integer: its decimal digits,
      without leading zeros. */
  function NatToString(n: nat): (r: string)
    ensures |r| > 0 && AllDigits(r)
    ensures n > 0 ==> r[0] != '0'
  {
    if n < 10 then [DigitChar(n)]
    else NatToString(n / 10) + [DigitChar(n % 10)]
  }

  /** Swift's `String(n)` for any integer. */
  function IntToString(n: int): (r: string)
    ensures |r| > 0 && Percent !in r
    ensures n >= 0 <==> AllDigits(r)
  {
    if n < 0 then
      var r := "-" + NatToString(-n);
      assert !IsDigit(r[0]);
      r
    else NatToString(n)
  }

  lemma {:induction false} DigitsValueOfNatToString(n: nat)
    ensures DigitsValue(NatToString(n)) == n
  {
    var r := NatToString(n);
    if n >= 10 {
      var prefix := NatToString(n / 10);
      assert r[..|r| - 1] == prefix;
      DigitsValueOfNatToString(n / 10);
    }
  }

  /** Parsing is a left inverse of rendering. */
  lemma ParseIntOfIntToString(n: int)
    ensures ParseInt(IntToString(n)) == Some(n)
  {
    if n < 0 {
      var digits := NatToString(-n);
      assert ("-" + digits)[1..] == digits;
      DigitsValueOfNatToString(-n);
    } else {
      DigitsValueOfNatToString(n);
    }
  }

  lemma {:induction false} DigitsValueLeadingZero(t: string)
    requires AllDigits(t)
    ensures AllDigits("0" + t) && DigitsValue("0" + t) == DigitsValue(t)
  {
    var z := "0" + t;
    assert AllDigits(z) by {
      forall i | 0 <= i < |z|
        ensures IsDigit(z[i])
      {
        if i > 0 { assert z[i] == t[i - 1]; }
      }
    }
    if |t| > 0 {
      var front := t[..|t| - 1];
      assert z[..|z| - 1] == "0" + front;
      assert z[|z| - 1] == t[|t| - 1];
      DigitsValueLeadingZero(front);
    }
  }

  /** A leading zero does not change the value of an unsigned number. */
  lemma ParseIntLeadingZero(t: string)
    requires |t| > 0 && AllDigits(t)
    ensures ParseInt("0" + t) == ParseInt(t)
  {
    DigitsValueLeadingZero(t);
  }

  /** A `+` sign keeps the value of the digits after it; a `-` sign negates it. */
  lemma ParseIntSign(t: string)
    requires |t| > 0 && AllDigits(t)
    ensures ParseInt("+" + t) == ParseInt(t)
    ensures ParseInt("-" + t) == Some(-ParseInt(t).value)
  {
    assert ("+" + t)[1..] == t;
    assert ("-" + t)[1..] == t;
  }
}
